=== FILE: README.md ===
# Coffee roasting dashboard — session logic

A Dafny model of the logic inside the coffee-roasting dashboard script
`app.py`: the session record the script keeps between reruns, the four
roast-control buttons and their enable guards, the live temperature lookup on
the generated profile's half-minute grid, the live trace appended on every
rerun while a roast runs, the statistics panel (latest temperature, peak
temperature, time to first crack) and the roast-level recommendation panel.

The script is modelled as a sequence of reruns. Each rerun takes the session,
at most one button click and one clock reading (`now`), and yields the next
session together with the statistics panel drawn during that rerun
(`RoastSession.Rerun`). Every session reachable from the initial one satisfies
`RoastSession.Valid`: a running roast has a profile and a start time, and
before the first start there is no trace row and no First Crack event.

Modules:

- `Wrappers` — `Option`.
- `RoastLevels` — the five roast levels and the recommendation panel.
- `Timeline` — the event log: kinds and their labels, append, per-kind
  filtering, clearing, and the earliest-occurrence property of the filter.
- `Sampling` — time units, Python's truncating `int()`, pandas positional
  access, and the clamped half-minute sample lookup.
- `Statistics` — trace rows, peak, time to first crack, the panel.
- `RoastSession` — the session record, the buttons, one rerun, runs of reruns.

Units: instants are integers in microseconds, the resolution of a clock
reading. Temperatures and minutes are exact `real`s.

The script's behaviour differs from a conventional roast state machine in
several ways, and this model follows the script:

- There is no Completed state. Ending a roast clears the running flag, and
  Start is available again while a profile is present.
- Generating a profile is allowed in every state, including mid-roast.
- Misuse is not an error. The model judges each click by the session the
  rerun starts from. A click on a button disabled there is treated as no
  click and leaves the session unchanged (`RoastSession.Press`).
- Event timestamps are not checked for order.
- Start keeps the trace and the event log from earlier roasts. After a second
  Start, the time to first crack measures the earlier roast's First Crack
  against the new start time, so it can be negative. For example, a crack
  logged at minute 8 and a restart at minute 20 give -12 minutes. The latest
  and peak temperatures likewise span every roast in the trace.
- The live sample is read at index `min(int(elapsed_minutes * 2), len - 1)`.
  `int()` truncates toward zero, and pandas treats a negative position as
  counting from the end. So a clock reading earlier than the start by half a
  minute or more reads a sample near the END of the curve. Further back, the
  lookup raises and aborts the rerun
  (`Sampling.NegativeElapsedReadsFromEnd`).

## Model

| member | source | states |
|---|---|---|
| RoastSession.Init | app.py:30-37 | a new session has an empty trace, no roast running, no start time, no profile and no events of any kind, and it satisfies the reachability invariant |
| RoastSession.Generate | app.py:65-69 | Generate installs the new profile in any state, leaves the running flag, start time and trace untouched, and appends exactly one Profile Generated event stamped now |
| RoastSession.Start | app.py:88-91 | Start, allowed only with no roast running and a profile present, marks the roast running from now, keeps the profile and trace, and appends exactly one Roast Started event |
| RoastSession.Record | app.py:94-98 | Add Event, allowed only while running, appends the chosen mark and note stamped now and changes nothing else |
| RoastSession.End | app.py:101-104 | End, allowed only while running, stops the roast, keeps start time, profile and trace, and logs Roast Completed with duration now minus the start time |
| RoastSession.ClearLog | app.py:143-144 | Clear Events empties the log, leaving no event of any kind, and changes nothing else |
| RoastSession.Enabled | app.py:88-131 | Start is enabled exactly when no roast runs and a profile is present, Add Event and End exactly while a roast runs, Clear Events exactly when the log is non-empty, and Generate always |
| RoastSession.GuardsExclusive | app.py:88-101 | Start and End are never enabled together, with a profile present exactly one of them is, and Add Event is enabled exactly when End is |
| RoastSession.Press | app.py:88-101 | a click on a disabled button (Start while running or without a profile, Add Event or End while idle) leaves the session unchanged |
| RoastSession.Tick | app.py:106-125 | while a roast runs on a non-empty profile with the clock at or past the start, a tick appends exactly one row, with an empty event column and the profile sample at the clamped index, and earlier rows stay unchanged; when idle nothing is appended |
| RoastSession.Click | app.py:65-104 | an enabled button's handler takes effect, no click or a Clear Events click leaves the session as it is at this point, the session stays reachable, the trace is untouched, and the log grows by at most one event at its end |
| RoastSession.Rerun | app.py:65-165 | a rerun keeps the session reachable; the running flag, start time and profile are the ones the click left; the log is emptied only by a Clear Events click on a run that does not raise, and otherwise is the log the click left; the panel is drawn exactly when the trace is non-empty and the lookup did not raise, from the ticked trace and the log as it stood before clearing; the trace grows by at most one row, and by exactly one while running with the clock at or past the start |
| RoastSession.Finish | app.py:106-165 | after the handlers, the tick decides the trace, the panel reads the trace and the pre-clear log, and only a requested clear on a run that does not raise empties the log |
| RoastSession.PressPreservesValid | app.py:65-104 | every button handler maps a reachable session to a reachable one |
| RoastSession.PressKeepsTrace | app.py:65-104 | no button changes the trace, and no button except Clear Events does anything to the log but append at most one event |
| RoastSession.EndThenStartEnabled | app.py:88-104 | ending a roast is not terminal: Start's guard holds on the session End leaves, so Start is enabled from the next rerun on |
| RoastSession.StartEndDuration | app.py:88-104 | Start at t1 then End at t2 logs the duration t2 - t1, non-negative when t1 <= t2 |
| RoastSession.GenerateMidRoast | app.py:65-69 | regenerating mid-roast keeps the roast running from the same start, and End then logs the same completion event as without the regeneration |
| RoastSession.Run | app.py:30-165 | every session reached by any sequence of reruns from a reachable one is reachable |
| RoastSession.TraceAppendOnly | app.py:119-125 | over any number of reruns the trace only grows at its end, by at most one row per rerun |
| RoastSession.FirstCrackAfterEightMinutes | app.py:150-160 | generate, start, then log First Crack eight minutes later: the panel shows eight minutes to first crack and the sample at minute eight as current temperature |
| Sampling.TruncDiv | app.py:113 | `int()` of a quotient truncates toward zero: the quotient brackets the dividend from below for non-negative and from above for negative dividends |
| Sampling.SampleIndex | app.py:113 | the index is at most the last position and at most the truncated half-minute count, and equals one of the two |
| Sampling.PositionalGet | app.py:112-114 | positional access succeeds exactly for positions in [-len, len), and then returns the row at the position taken modulo the length, so a negative position counts from the end |
| Sampling.SampleAt | app.py:110-114 | for a non-empty profile and non-negative elapsed time the lookup succeeds at an index inside the curve; an empty profile always raises |
| Sampling.SampleIndexGrid | app.py:111-114 | for non-negative elapsed time the index lies in [0, len-1], equals len-1 exactly when elapsed reaches (len-1) half-minutes, and otherwise is the half-minute slot containing the elapsed time |
| Sampling.SampleIndexMonotone | app.py:111-114 | the sample index never decreases as elapsed time grows |
| Sampling.NegativeElapsedReadsFromEnd | app.py:111-114 | a clock at least half a minute behind the start reads a sample counted from the end of the curve, and far enough behind the lookup raises |
| Statistics.Peak | app.py:152 | the peak bounds every recorded temperature and is attained by some row |
| Statistics.TimeToFirstCrack | app.py:153-160 | "N/A" exactly when no First Crack event was logged; otherwise the minutes from the start to the earliest First Crack in log order |
| Statistics.Compute | app.py:150-160 | the panel is drawn exactly when the trace is non-empty; latest is the last row's temperature and no more than the peak, which bounds and is attained by the rows |
| Statistics.FirstCrackNonNegative | app.py:159-160 | when every First Crack is logged no earlier than the start, the reported time is non-negative, whatever other events precede the start |
| Statistics.FirstCrackStable | app.py:155-160 | once First Crack has been logged, further events never change the reported time to first crack, for the same start time |
| Timeline.LabelInjective | app.py:155-157 | distinct event kinds carry distinct labels, so comparing labels is comparing kinds |
| Timeline.Append | app.py:98 | recording an event keeps every earlier entry and adds exactly one at the end |
| Timeline.EventsOf | app.py:156-158 | the filter keeps exactly the events of the requested kind and is no longer than the log |
| Timeline.EventsOfEmpty | app.py:155 | the filter is empty exactly when no event of that kind was logged |
| Timeline.FirstOfFilter | app.py:156-158 | the head of the filter is the earliest event of that kind in log order |
| Timeline.EventsOfAppend | app.py:98 | appending extends the filter of the appended kind by that event and leaves every other kind's filter unchanged |
| Timeline.FirstOfStable | app.py:156-158 | once a kind has an event, appending never changes which one comes first |
| Timeline.Clear | app.py:144 | after clearing, no kind has any event |
| RoastLevels.Recommendation | app.py:169-190 | no panel without a profile; with one, Light gets the light panel, Medium the medium panel, and Dark, French and Italian the dark panel |
| RoastLevels.RecommendationMonotone | app.py:170-190 | a darker slider position never gets lighter advice |
| RoastLevels.NameInjective | app.py:56-60 | distinct roast levels have distinct labels |

## Left out

- The profile generator (`utils/profile_generator.py`) is not part of this model. The curve it returns travels with the Generate click as a parameter. `RoastSession.WellFormed` assumes it is non-empty. No curve shape or monotonicity is assumed.
- The event handler (`utils/event_handler.py`) is not part of this model. It is represented by an append-only sequence of `(timestamp, kind, details)` with a clear operation. Each event is assumed to be stamped with the rerun's clock reading.
- The one-rerun lag of the buttons' enabled state is left out. Each `disabled` flag is evaluated when the script reaches that button. In the rerun where End is clicked, Start is still drawn disabled, and Add Event and End are still drawn enabled. In the rerun where Start is clicked, Start is still drawn enabled. The model assumes that a button reports a click only if it was enabled on the page the operator clicked, which is the session the next rerun starts from. This is a premise about the UI framework, which the script does not show.
- The handler is created anew on every rerun (app.py:27). Whether events survive between reruns depends on `utils/event_handler.py`, which this model leaves out, so the model keeps the log in the session.
- The nested "Confirm Event" button (app.py:94-98) is left out. It is drawn only in the rerun where Add Event was clicked. Clicking it starts a new rerun in which Add Event reports no click, so the script as written never reaches the logging call at app.py:98. The model instead treats Add Event as logging the chosen event directly while a roast runs, which is what the script evidently intends.
- Clock reads are the parameter `now`. A rerun uses one reading for all of its steps, where the script reads the clock several times.
- Floating point is replaced by exact arithmetic. `int(current_time * 2)` can differ by one right at a half-minute boundary when computed in floats.
- Text formatting is left out: the `.1f` metrics and the event detail strings. `Timeline.Detail` keeps the values the strings are formatted from.
- UI is left out: the page configuration, CSS, the image, the charts (`utils/visualization.py`), and the events table display.
- RoastSession.End: when the start time is missing, the script raises after clearing the flag. The model keeps the cleared flag and logs nothing. It does not model the abort of the rest of that rerun, because no reachable session has a running roast without a start time.

=== FILE: levels.dfy ===
/** The target roast levels offered by the sidebar slider and the
    recommendation panel chosen from the selected level. */
module RoastLevels {

  import opened Wrappers

  /** The slider's options, in slider order (lightest first). */
  datatype RoastLevel = Light | Medium | Dark | French | Italian

  /** Position of a level on the slider: 0 for Light up to 4 for Italian. */
  function Darkness(level: RoastLevel): nat {
    match level
    case Light => 0
    case Medium => 1
    case Dark => 2
    case French => 3
    case Italian => 4
  }

  /** The level's label as it appears in the slider and in event details. */
  function Name(level: RoastLevel): string {
    match level
    case Light => "Light"
    case Medium => "Medium"
    case Dark => "Dark"
    case French => "French"
    case Italian => "Italian"
  }

  /** The three advice panels. */
  datatype Tip = LightTips | MediumTips | DarkTips

  /** Rank of a panel from lightest to darkest advice. */
  function TipRank(t: Tip): nat {
    match t
    case LightTips => 0
    case MediumTips => 1
    case DarkTips => 2
  }

  /** The panel shown for the currently selected level. Nothing is shown
      until a profile has been generated; the three-way branch covers every
      level, so a profile always brings a panel. */
  function Recommendation(level: RoastLevel, profilePresent: bool): (r: Option<Tip>)
    ensures r.None? <==> !profilePresent
    ensures r == Some(DarkTips) <==> profilePresent && (level.Dark? || level.French? || level.Italian?)
    ensures r == Some(LightTips) <==> profilePresent && level == Light
    ensures r == Some(MediumTips) <==> profilePresent && level == Medium
  {
    if !profilePresent then None
    else if level == Light then Some(LightTips)
    else if level == Medium then Some(MediumTips)
    else Some(DarkTips)
  }

  /** Darker slider positions never get lighter advice. */
  lemma RecommendationMonotone(a: RoastLevel, b: RoastLevel)
    requires Darkness(a) <= Darkness(b)
    ensures TipRank(Recommendation(a, true).value) <= TipRank(Recommendation(b, true).value)
  {
  }

  /** Distinct levels have distinct labels, so comparing labels (as the
      dashboard does) is comparing levels. */
  lemma NameInjective(a: RoastLevel, b: RoastLevel)
    ensures Name(a) == Name(b) ==> a == b
  {
  }
}

=== FILE: sampling.dfy ===
/** The live temperature lookup: elapsed roast time is mapped onto the
    generated profile's half-minute grid, clamped to its last sample. */
module Sampling {

  import opened Wrappers

  /** Microseconds in a minute, to turn clock differences into minutes. */
  const MicrosPerMinute: int := 60_000_000

  /** The profile is sampled twice a minute (elapsed minutes times two). */
  const MicrosPerSample: int := 30_000_000

  /** The generated curve's temperatures, one per half-minute sample. */
  type Profile = seq<real>

  /** Python's `int()` of a quotient: division truncating toward zero. */
  function TruncDiv(a: int, d: int): (q: int)
    requires d > 0
    ensures a >= 0 ==> q * d <= a < (q + 1) * d
    ensures a < 0 ==> (q - 1) * d < a <= q * d
    ensures (a >= 0) == (q >= 0) || q == 0
  {
    if a >= 0 then a / d else -((-a) / d)
  }

  function Min(a: int, b: int): (m: int)
    ensures m <= a && m <= b && (m == a || m == b)
  {
    if a <= b then a else b
  }

  /** The row position read for a given elapsed time (in microseconds). */
  function SampleIndex(elapsed: int, len: int): (k: int)
    ensures k <= len - 1 && k <= TruncDiv(elapsed, MicrosPerSample)
    ensures k == len - 1 || k == TruncDiv(elapsed, MicrosPerSample)
  {
    Min(TruncDiv(elapsed, MicrosPerSample), len - 1)
  }

  /** Positional row access as pandas `iloc` does it: negative positions
      count from the end; anything outside `[-len, len)` raises, modelled
      as `None`. */
  function PositionalGet<T>(s: seq<T>, k: int): (r: Option<T>)
    ensures r.Some? <==> -|s| <= k < |s|
    ensures r.Some? ==> r.value == s[k % |s|]
  {
    if 0 <= k < |s| then Some(s[k])
    else if -|s| <= k < 0 then Some(s[|s| + k])
    else None
  }

  /** The temperature displayed as current while a roast runs. */
  function SampleAt(profile: Profile, elapsed: int): (r: Option<real>)
    ensures |profile| > 0 && elapsed >= 0 ==>
              r.Some? && 0 <= SampleIndex(elapsed, |profile|) < |profile|
              && r.value == profile[SampleIndex(elapsed, |profile|)]
    ensures |profile| == 0 ==> r.None?
  {
    PositionalGet(profile, SampleIndex(elapsed, |profile|))
  }

  /** For a non-negative elapsed time the index lies on the curve and is
      the last sample exactly when the elapsed time has reached it;
      before that it is the half-minute slot the elapsed time falls in. */
  lemma SampleIndexGrid(elapsed: int, len: int)
    requires len > 0 && elapsed >= 0
    ensures 0 <= SampleIndex(elapsed, len) <= len - 1
    ensures SampleIndex(elapsed, len) == len - 1 <==> elapsed >= (len - 1) * MicrosPerSample
    ensures SampleIndex(elapsed, len) < len - 1 ==>
              SampleIndex(elapsed, len) * MicrosPerSample <= elapsed
              < (SampleIndex(elapsed, len) + 1) * MicrosPerSample
  {
  }

  /** The index never moves backwards as time advances. */
  lemma SampleIndexMonotone(e1: int, e2: int, len: int)
    requires 0 <= e1 <= e2
    ensures SampleIndex(e1, len) <= SampleIndex(e2, len)
  {
  }

  /** As written, a clock reading earlier than the start time by at least
      half a minute yields a negative position, which pandas resolves from
      the END of the curve; far enough back the lookup raises. */
  lemma NegativeElapsedReadsFromEnd(profile: Profile, elapsed: int)
    requires |profile| > 0 && elapsed <= -MicrosPerSample
    ensures -|profile| * MicrosPerSample < elapsed ==>
              SampleAt(profile, elapsed) == Some(profile[|profile| + TruncDiv(elapsed, MicrosPerSample)])
              && 0 <= |profile| + TruncDiv(elapsed, MicrosPerSample) < |profile|
    ensures elapsed <= -(|profile| + 1) * MicrosPerSample ==> SampleAt(profile, elapsed).None?
  {
  }
}

=== FILE: session.dfy ===
/** The dashboard's session record and one rerun of the script: the button
    handlers (whose enable guards are the transition preconditions), the
    live-trace tick and the statistics panel. The clock is passed in as
    `now`; the profile generator is outside this model, so the profile it
    returned travels with the Generate button press. */
module RoastSession {

  import opened Wrappers
  import opened RoastLevels
  import opened Timeline
  import opened Sampling
  import opened Statistics

  datatype Session = Session(
    roastData: seq<Row>,
    inProgress: bool,
    startTime: Option<Instant>,
    profile: Option<Profile>,
    log: Log)

  /** The session as first created: empty trace, no roast, no start time,
      no profile, and an empty event log. */
  function Init(): (s: Session)
    ensures s.roastData == [] && !s.inProgress && s.startTime.None? && s.profile.None?
    ensures forall k :: |EventsOf(s.log, k)| == 0
    ensures Valid(s)
  {
    Session([], false, None, None, [])
  }

  /** The control buttons, with the sidebar values read when they fire. */
  datatype Button =
    | GenerateProfile(generated: Profile, bean: string, level: RoastLevel)
    | StartRoast(batchGrams: int, bean: string, origin: string)
    | AddEvent(mark: Mark, note: string)
    | EndRoast
    | ClearEvents

  /** The negation of each button's `disabled` flag, judged on the session
      a rerun starts from (Clear Events is only drawn when the log has
      events). */
  predicate Enabled(s: Session, b: Button)
    ensures b.StartRoast? ==> (Enabled(s, b) <==> !s.inProgress && s.profile.Some?)
    ensures b.AddEvent? || b.EndRoast? ==> (Enabled(s, b) <==> s.inProgress)
    ensures b.ClearEvents? ==> (Enabled(s, b) <==> |s.log| > 0)
    ensures b.GenerateProfile? ==> Enabled(s, b)
  {
    match b
    case GenerateProfile(_, _, _) => true
    case StartRoast(_, _, _) => !s.inProgress && s.profile.Some?
    case AddEvent(_, _) => s.inProgress
    case EndRoast => s.inProgress
    case ClearEvents => |s.log| > 0
  }

  /** Generate: replaces the profile at any time, even mid-roast, and logs
      one event; the roast itself is untouched. */
  function Generate(s: Session, generated: Profile, bean: string, level: RoastLevel, now: Instant): (t: Session)
    ensures t.profile == Some(generated)
    ensures t.inProgress == s.inProgress && t.startTime == s.startTime && t.roastData == s.roastData
    ensures |t.log| == |s.log| + 1 && t.log[..|s.log|] == s.log
    ensures t.log[|s.log|].kind == ProfileGenerated && t.log[|s.log|].timestamp == now
  {
    s.(profile := Some(generated),
       log := Append(s.log, ProfileGenerated, ProfileNote(bean, Name(level)), now))
  }

  /** Start: only with no roast running and a profile present; marks the
      roast running from `now` and logs one event. */
  function Start(s: Session, batchGrams: int, bean: string, origin: string, now: Instant): (t: Session)
    requires Enabled(s, StartRoast(batchGrams, bean, origin))
    ensures t.inProgress && t.startTime == Some(now)
    ensures t.profile == s.profile && t.roastData == s.roastData
    ensures |t.log| == |s.log| + 1 && t.log[..|s.log|] == s.log
    ensures t.log[|s.log|].kind == RoastStarted && t.log[|s.log|].timestamp == now
  {
    s.(inProgress := true, startTime := Some(now),
       log := Append(s.log, RoastStarted, BatchNote(batchGrams, bean, origin), now))
  }

  /** Add Event: only while a roast runs; logs the chosen mark and note. */
  function Record(s: Session, mark: Mark, note: string, now: Instant): (t: Session)
    requires Enabled(s, AddEvent(mark, note))
    ensures t.inProgress && t.startTime == s.startTime && t.profile == s.profile
    ensures t.roastData == s.roastData
    ensures |t.log| == |s.log| + 1 && t.log[..|s.log|] == s.log
    ensures t.log[|s.log|] == Event(now, Operator(mark), Note(note))
  {
    s.(log := Append(s.log, Operator(mark), Note(note), now))
  }

  /** End: only while a roast runs; stops it and logs the duration since the
      start. The start time and the profile are kept, so Start becomes
      available again. With no start time the duration subtraction raises
      after the flag is cleared, so nothing is logged. */
  function End(s: Session, now: Instant): (t: Session)
    requires Enabled(s, EndRoast)
    ensures !t.inProgress
    ensures t.startTime == s.startTime && t.profile == s.profile && t.roastData == s.roastData
    ensures s.startTime.Some? ==>
              && |t.log| == |s.log| + 1 && t.log[..|s.log|] == s.log
              && t.log[|s.log|] == Event(now, RoastCompleted, DurationNote(now - s.startTime.value))
    ensures s.startTime.None? ==> t.log == s.log
  {
    var stopped := s.(inProgress := false);
    match s.startTime
    case None => stopped
    case Some(start) => stopped.(log := Append(s.log, RoastCompleted, DurationNote(now - start), now))
  }

  /** Clear Events: empties the log and nothing else. */
  function ClearLog(s: Session): (t: Session)
    ensures t == s.(log := []) && forall k :: |EventsOf(t.log, k)| == 0
  {
    s.(log := Clear(s.log))
  }

  /** A click: the handler runs when the button is enabled; a disabled
      button reports no click, so the session is unchanged. */
  function Press(s: Session, b: Button, now: Instant): (t: Session)
    ensures !Enabled(s, b) ==> t == s
  {
    if !Enabled(s, b) then s
    else match b
      case GenerateProfile(p, bean, level) => Generate(s, p, bean, level, now)
      case StartRoast(g, bean, origin) => Start(s, g, bean, origin, now)
      case AddEvent(m, note) => Record(s, m, note, now)
      case EndRoast => End(s, now)
      case ClearEvents => ClearLog(s)
  }

  /** The live-trace step of a rerun: while a roast runs, the current
      profile sample is appended as one row with an empty event column.
      A missing start time or an out-of-range lookup raises before the
      append, leaving the trace as it was. */
  function Tick(s: Session, now: Instant): (t: Session)
    ensures t.inProgress == s.inProgress && t.startTime == s.startTime
    ensures t.profile == s.profile && t.log == s.log
    ensures !s.inProgress ==> t == s
    ensures |t.roastData| == |s.roastData| || |t.roastData| == |s.roastData| + 1
    ensures t.roastData[..|s.roastData|] == s.roastData
    ensures |t.roastData| == |s.roastData| + 1 ==> t.roastData[|s.roastData|].event == ""
    ensures s.inProgress && s.profile.Some? && |s.profile.value| > 0
            && s.startTime.Some? && now >= s.startTime.value ==>
              var elapsed := now - s.startTime.value;
              && |t.roastData| == |s.roastData| + 1
              && t.roastData[|s.roastData|]
                 == Row(MinutesBetween(s.startTime.value, now),
                        s.profile.value[SampleIndex(elapsed, |s.profile.value|)], "")
  {
    if s.inProgress && s.profile.Some? && s.startTime.Some? then
      var start := s.startTime.value;
      match SampleAt(s.profile.value, now - start)
      case None => s
      case Some(temp) => s.(roastData := s.roastData + [Row(MinutesBetween(start, now), temp, "")])
    else s
  }

  /** The live-trace step raises: a roast is running on a profile but the
      start time is missing or the lookup falls outside the curve. */
  predicate TickRaises(s: Session, now: Instant) {
    && s.inProgress && s.profile.Some?
    && (s.startTime.None? || SampleAt(s.profile.value, now - s.startTime.value).None?)
  }

  /** Every session the dashboard can reach: a running roast has a profile
      and a start time, a profile has at least one sample (the generator
      returns a non-empty curve), and before any start there is neither a
      trace row nor a First Crack event. */
  ghost predicate Valid(s: Session) {
    && (s.inProgress ==> s.profile.Some? && s.startTime.Some?)
    && (s.profile.Some? ==> |s.profile.value| > 0)
    && (s.startTime.None? ==> s.roastData == [] && !HasFirstCrack(s.log))
  }

  /** The generator contributes a non-empty curve. */
  predicate WellFormed(click: Option<Button>) {
    click.Some? && click.value.GenerateProfile? ==> |click.value.generated| > 0
  }

  /** What one rerun leaves behind: the new session and the statistics
      panel drawn during it. */
  datatype Frame = Frame(next: Session, stats: Option<Stats>)

  /** One run of the script: at most one button click, then the live-trace
      tick, then the statistics panel. The panel reads the event log as it
      stood before Clear Events ran in this same rerun. A raising lookup
      aborts the run after the click: no row, no panel, no clearing. */
  function Rerun(s: Session, click: Option<Button>, now: Instant): (f: Frame)
    requires Valid(s) && WellFormed(click)
    ensures Valid(f.next)
    ensures f.stats.None? <==> |f.next.roastData| == 0 || TickRaises(f.next, now)
    ensures |s.roastData| <= |f.next.roastData| <= |s.roastData| + 1
    ensures f.next.roastData[..|s.roastData|] == s.roastData
    ensures f.next.log == [] || (|s.log| <= |f.next.log| <= |s.log| + 1 && f.next.log[..|s.log|] == s.log)
    ensures f.next.inProgress && now >= f.next.startTime.value ==>
              |f.next.roastData| == |s.roastData| + 1
    ensures click != Some(ClearEvents) || TickRaises(f.next, now) ==>
              f.next.log == Click(s, click, now).log
    ensures click == Some(ClearEvents) && !TickRaises(f.next, now) ==> f.next.log == []
    ensures f.stats.Some? ==> f.stats == Compute(f.next.roastData, Click(s, click, now).log, f.next.startTime)
    ensures f.next.roastData == Tick(Click(s, click, now), now).roastData
    ensures var c := Click(s, click, now);
            f.next.inProgress == c.inProgress && f.next.startTime == c.startTime && f.next.profile == c.profile
  {
    Finish(Click(s, click, now), click == Some(ClearEvents), now)
  }

  /** The part of a rerun after the button handlers: the live-trace tick,
      the statistics panel drawn from the trace and the log as the handlers
      left it, then Clear Events when that was the click. A raising lookup
      stops the run before any of this. */
  function Finish(pressed: Session, clear: bool, now: Instant): (f: Frame)
    requires Valid(pressed)
    ensures Valid(f.next)
    ensures f.next.inProgress == pressed.inProgress && f.next.startTime == pressed.startTime
    ensures f.next.profile == pressed.profile
    ensures TickRaises(f.next, now) == TickRaises(pressed, now)
    ensures f.next.roastData == Tick(pressed, now).roastData
    ensures f.stats.None? <==> |f.next.roastData| == 0 || TickRaises(pressed, now)
    ensures f.stats.Some? ==> f.stats == Compute(f.next.roastData, pressed.log, pressed.startTime)
    ensures !clear || TickRaises(pressed, now) ==> f.next.log == pressed.log
    ensures clear && !TickRaises(pressed, now) ==> f.next.log == []
  {
    if TickRaises(pressed, now) then Frame(pressed, None)
    else
      var ticked := Tick(pressed, now);
      assert Valid(ticked);
      var next := if clear then ClearLog(ticked) else ticked;
      Frame(next, Compute(ticked.roastData, ticked.log, ticked.startTime))
  }

  /** The button part of a rerun (Clear Events runs later, after the tick):
      the session stays reachable, the trace is untouched and the log grows
      by at most one event at its end. */
  function Click(s: Session, click: Option<Button>, now: Instant): (t: Session)
    requires Valid(s) && WellFormed(click)
    ensures Valid(t) && t.roastData == s.roastData
    ensures |s.log| <= |t.log| <= |s.log| + 1 && t.log[..|s.log|] == s.log
    ensures click.Some? && !click.value.ClearEvents? ==> t == Press(s, click.value, now)
    ensures click.None? || click.value.ClearEvents? ==> t == s
  {
    PressPreservesValid(s, click, now);
    PressKeepsTrace(s, click, now);
    if click.Some? && !click.value.ClearEvents? then Press(s, click.value, now) else s
  }

  /** A click never touches the trace, and the log either grows by at most
      one event at its end or is cleared. */
  lemma PressKeepsTrace(s: Session, click: Option<Button>, now: Instant)
    ensures click.Some? ==> Press(s, click.value, now).roastData == s.roastData
    ensures click.Some? && !click.value.ClearEvents? ==>
              var t := Press(s, click.value, now);
              t.log[..|s.log|] == s.log && |t.log| <= |s.log| + 1
  {
  }

  /** A click keeps a reachable session reachable. */
  lemma PressPreservesValid(s: Session, click: Option<Button>, now: Instant)
    requires Valid(s) && WellFormed(click)
    ensures Valid(if click.Some? then Press(s, click.value, now) else s)
  {
    if click.Some? && Enabled(s, click.value) {
      var b := click.value;
      var t := Press(s, b, now);
      match b
      case GenerateProfile(p, bean, level) =>
        EventsOfAppend(s.log, ProfileGenerated, ProfileNote(bean, Name(level)), now, Operator(FirstCrack));
      case StartRoast(_, _, _) =>
      case AddEvent(_, _) =>
      case EndRoast =>
      case ClearEvents =>
    }
  }

  /** Start and End are never enabled together; with a profile present,
      exactly one of them is. Add Event is enabled exactly with End. */
  lemma GuardsExclusive(s: Session, batchGrams: int, bean: string, origin: string, mark: Mark, note: string)
    ensures !(Enabled(s, StartRoast(batchGrams, bean, origin)) && Enabled(s, EndRoast))
    ensures s.profile.Some? ==> Enabled(s, StartRoast(batchGrams, bean, origin)) || Enabled(s, EndRoast)
    ensures Enabled(s, AddEvent(mark, note)) <==> Enabled(s, EndRoast)
  {
  }

  /** Ending a roast is not terminal: Start's guard holds on the session
      End leaves, because the profile is kept, so Start is enabled from the
      next rerun on. */
  lemma EndThenStartEnabled(s: Session, now: Instant, batchGrams: int, bean: string, origin: string)
    requires Valid(s) && s.inProgress
    ensures Enabled(Press(s, EndRoast, now), StartRoast(batchGrams, bean, origin))
  {
  }

  /** Start at `t1` followed by End at `t2` logs the duration `t2 - t1`,
      which is non-negative when the clock has not gone backwards. */
  lemma StartEndDuration(s: Session, batchGrams: int, bean: string, origin: string, t1: Instant, t2: Instant)
    requires Valid(s) && Enabled(s, StartRoast(batchGrams, bean, origin))
    ensures var u := Press(Press(s, StartRoast(batchGrams, bean, origin), t1), EndRoast, t2);
            && |u.log| == |s.log| + 2
            && u.log[|s.log| + 1] == Event(t2, RoastCompleted, DurationNote(t2 - t1))
            && (t1 <= t2 ==> u.log[|s.log| + 1].details.elapsed >= 0)
  {
  }

  /** Generating a new profile mid-roast does not disturb the roast: the
      roast stays running from the same start, and ending it logs the same
      duration as ending it without the regeneration. */
  lemma GenerateMidRoast(s: Session, p: Profile, bean: string, level: RoastLevel, t1: Instant, t2: Instant)
    requires Valid(s) && s.inProgress && |p| > 0
    ensures var g := Press(s, GenerateProfile(p, bean, level), t1);
            && Valid(g) && g.inProgress && g.startTime == s.startTime
            && Press(g, EndRoast, t2).log[|g.log|] == Press(s, EndRoast, t2).log[|s.log|]
  {
  }

  /** A sequence of reruns, each with its click and clock reading. */
  function Run(s: Session, steps: seq<(Option<Button>, Instant)>): (t: Session)
    requires Valid(s) && forall i :: 0 <= i < |steps| ==> WellFormed(steps[i].0)
    ensures Valid(t)
    decreases |steps|
  {
    if steps == [] then s
    else Run(Rerun(s, steps[0].0, steps[0].1).next, steps[1..])
  }

  /** The live trace only ever grows: whatever rows a session has are still
      the first rows after any number of reruns, and each rerun adds at
      most one. */
  lemma {:induction false} TraceAppendOnly(s: Session, steps: seq<(Option<Button>, Instant)>)
    requires Valid(s) && forall i :: 0 <= i < |steps| ==> WellFormed(steps[i].0)
    ensures |s.roastData| <= |Run(s, steps).roastData| <= |s.roastData| + |steps|
    ensures Run(s, steps).roastData[..|s.roastData|] == s.roastData
    decreases |steps|
  {
    if steps != [] {
      var n := Rerun(s, steps[0].0, steps[0].1).next;
      assert Run(s, steps) == Run(n, steps[1..]);
      assert |s.roastData| <= |n.roastData| <= |s.roastData| + 1;
      assert n.roastData[..|s.roastData|] == s.roastData;
      TraceAppendOnly(n, steps[1..]);
      PrefixOfPrefix(s.roastData, n.roastData, Run(n, steps[1..]).roastData);
    }
  }

  /** A prefix of a prefix is a prefix. */
  lemma PrefixOfPrefix<T>(a: seq<T>, b: seq<T>, c: seq<T>)
    requires |a| <= |b| <= |c| && b[..|a|] == a && c[..|b|] == b
    ensures c[..|a|] == a
  {
    assert c[..|a|] == c[..|b|][..|a|];
  }

  /** First rerun of the scenario below: a Medium profile is generated. */
  lemma ScenarioGenerate(p: Profile, t0: Instant)
    requires |p| > 16
    ensures Rerun(Init(), Some(GenerateProfile(p, "Arabica", Medium)), t0).next
            == Session([], false, None, Some(p), [Event(t0, ProfileGenerated, ProfileNote("Arabica", Name(Medium)))])
  {
  }

  /** Second rerun: the roast starts, and its first trace row is sample 0. */
  lemma ScenarioStart(p: Profile, t0: Instant, log: Log)
    requires |p| > 16 && !HasFirstCrack(log)
    ensures Rerun(Session([], false, None, Some(p), log), Some(StartRoast(250, "Arabica", "Colombia")), t0).next
            == Session([Row(0.0, p[0], "")], true, Some(t0), Some(p),
                       log + [Event(t0, RoastStarted, BatchNote(250, "Arabica", "Colombia"))])
  {
  }

  /** Third rerun: First Crack is added eight minutes after the start. */
  lemma ScenarioCrack(p: Profile, t0: Instant, row0: Row, log: Log)
    requires |p| > 16 && !HasFirstCrack(log)
    ensures var t3 := t0 + 8 * MicrosPerMinute;
            var f := Rerun(Session([row0], true, Some(t0), Some(p), log), Some(AddEvent(FirstCrack, "")), t3);
            f.stats == Some(Stats(p[16], Peak(f.next.roastData), Minutes(8.0)))
  {
    var t3 := t0 + 8 * MicrosPerMinute;
    var s := Session([row0], true, Some(t0), Some(p), log);
    var e := Event(t3, Operator(FirstCrack), Note(""));
    var pressed := Click(s, Some(AddEvent(FirstCrack, "")), t3);
    assert pressed == s.(log := log + [e]);
    assert SampleIndex(t3 - t0, |p|) == 16;
    assert MinutesBetween(t0, t3) == 8.0;
    assert !TickRaises(pressed, t3);
    var ticked := Tick(pressed, t3);
    assert ticked.roastData == [row0, Row(8.0, p[16], "")];
    EventsOfAppend(log, Operator(FirstCrack), Note(""), t3, Operator(FirstCrack));
    assert EventsOf(ticked.log, Operator(FirstCrack)) == [e];
    assert TimeToFirstCrack(ticked.log, Some(t0)) == Minutes(8.0);
  }

  /** Generate, Start, then Add Event "First Crack" eight minutes later: the
      panel drawn in that rerun reports eight minutes to first crack, and
      the current temperature is the profile's sample at minute eight. */
  lemma FirstCrackAfterEightMinutes(p: Profile, t0: Instant)
    requires |p| > 16
    ensures var f1 := Rerun(Init(), Some(GenerateProfile(p, "Arabica", Medium)), t0);
            var f2 := Rerun(f1.next, Some(StartRoast(250, "Arabica", "Colombia")), t0);
            var f3 := Rerun(f2.next, Some(AddEvent(FirstCrack, "")), t0 + 8 * MicrosPerMinute);
            f3.stats == Some(Stats(p[16], Peak(f3.next.roastData), Minutes(8.0)))
  {
    var g := Event(t0, ProfileGenerated, ProfileNote("Arabica", Name(Medium)));
    var st := Event(t0, RoastStarted, BatchNote(250, "Arabica", "Colombia"));
    ScenarioGenerate(p, t0);
    assert !HasFirstCrack([g]) by {
      EventsOfAppend([], ProfileGenerated, g.details, t0, Operator(FirstCrack));
    }
    ScenarioStart(p, t0, [g]);
    assert !HasFirstCrack([g] + [st]) by {
      EventsOfAppend([g], RoastStarted, st.details, t0, Operator(FirstCrack));
    }
    ScenarioCrack(p, t0, Row(0.0, p[0], ""), [g] + [st]);
  }
}

=== FILE: statistics.dfy ===
/** The live trace and the statistics panel derived from it and from the
    event log. */
module Statistics {

  import opened Wrappers
  import opened Timeline
  import opened Sampling

  /** One row of the live trace: elapsed minutes, temperature read from the
      profile, and an event column that the dashboard always leaves empty. */
  datatype Row = Row(minutes: real, temperature: real, event: string)

  /** The metrics shown once the trace has a row. */
  datatype CrackTime = NotAvailable | Minutes(minutes: real)
  datatype Stats = Stats(latest: real, peak: real, firstCrack: CrackTime)

  /** A clock difference expressed in (exact) minutes. */
  function MinutesBetween(from: Instant, to: Instant): (m: real)
    ensures from <= to ==> m >= 0.0
    ensures m * MicrosPerMinute as real == (to - from) as real
  {
    (to - from) as real / MicrosPerMinute as real
  }

  /** The highest temperature in a non-empty trace: an upper bound that is
      attained by some row. */
  function Peak(rows: seq<Row>): (p: real)
    requires |rows| > 0
    ensures forall i :: 0 <= i < |rows| ==> rows[i].temperature <= p
    ensures exists i :: 0 <= i < |rows| && rows[i].temperature == p
    decreases |rows|
  {
    if |rows| == 1 then rows[0].temperature
    else
      var rest := Peak(rows[1..]);
      assert forall i :: 1 <= i < |rows| ==> rows[i] == rows[1..][i - 1];
      if rows[0].temperature >= rest then rows[0].temperature else rest
  }

  /** Whether a First Crack event has been logged. */
  predicate HasFirstCrack(log: Log) {
    |EventsOf(log, Operator(FirstCrack))| > 0
  }

  /** Minutes from the start of the roast to the earliest First Crack event,
      or "N/A" when none is in the log. The script subtracts the start time
      only when such an event exists, and that subtraction needs a start
      time. */
  function TimeToFirstCrack(log: Log, start: Option<Instant>): (r: CrackTime)
    requires HasFirstCrack(log) ==> start.Some?
    ensures r.NotAvailable? <==> forall i :: 0 <= i < |log| ==> log[i].kind != Operator(FirstCrack)
    ensures r.Minutes? ==>
              exists i :: IsFirstOf(log, Operator(FirstCrack), i)
                          && r.minutes == MinutesBetween(start.value, log[i].timestamp)
  {
    EventsOfEmpty(log, Operator(FirstCrack));
    var cracks := EventsOf(log, Operator(FirstCrack));
    if |cracks| == 0 then NotAvailable
    else
      FirstOfFilter(log, Operator(FirstCrack));
      Minutes(MinutesBetween(start.value, cracks[0].timestamp))
  }

  /** The statistics panel: nothing until the trace has a row; then the
      last row's temperature, the trace's peak and the time to first crack. */
  function Compute(rows: seq<Row>, log: Log, start: Option<Instant>): (r: Option<Stats>)
    requires HasFirstCrack(log) ==> start.Some?
    ensures r.None? <==> |rows| == 0
    ensures r.Some? ==>
              && r.value.latest == rows[|rows| - 1].temperature
              && r.value.latest <= r.value.peak
              && (forall i :: 0 <= i < |rows| ==> rows[i].temperature <= r.value.peak)
              && (exists i :: 0 <= i < |rows| && rows[i].temperature == r.value.peak)
              && r.value.firstCrack == TimeToFirstCrack(log, start)
  {
    if |rows| == 0 then None
    else Some(Stats(rows[|rows| - 1].temperature, Peak(rows), TimeToFirstCrack(log, start)))
  }

  /** When every First Crack is logged no earlier than the start (other
      events, such as the profile generation, may precede it), the reported
      time is non-negative. */
  lemma FirstCrackNonNegative(log: Log, start: Instant)
    requires forall i :: 0 <= i < |log| && log[i].kind == Operator(FirstCrack) ==> start <= log[i].timestamp
    ensures TimeToFirstCrack(log, Some(start)).Minutes? ==>
              TimeToFirstCrack(log, Some(start)).minutes >= 0.0
  {
  }

  /** Logging further events after the first crack leaves the reported
      time to first crack unchanged. */
  lemma FirstCrackStable(log: Log, kind: EventKind, details: Detail, now: Instant, start: Instant)
    requires HasFirstCrack(log)
    ensures TimeToFirstCrack(Append(log, kind, details, now), Some(start))
            == TimeToFirstCrack(log, Some(start))
  {
  }
}

=== FILE: timeline.dfy ===
/** The roast event log: an append-only sequence of timestamped events that
    can be filtered by kind and cleared. The event handler's own code is not
    part of this model; it is represented by this sequence and the
    operations the dashboard performs on it. */
module Timeline {

  /** An absolute wall-clock instant, in microseconds (the resolution of a
      clock reading). Differences of instants are durations in microseconds. */
  type Instant = int

  /** The kinds an operator can pick when adding an event. */
  datatype Mark = FirstCrack | SecondCrack | TemperatureAdjustment | Other

  /** Every kind of event the dashboard logs. */
  datatype EventKind = ProfileGenerated | RoastStarted | Operator(mark: Mark) | RoastCompleted

  /** The event-type string the dashboard stores and compares against. */
  function Label(k: EventKind): string {
    match k
    case ProfileGenerated => "Profile Generated"
    case RoastStarted => "Roast Started"
    case Operator(FirstCrack) => "First Crack"
    case Operator(SecondCrack) => "Second Crack"
    case Operator(TemperatureAdjustment) => "Temperature Adjustment"
    case Operator(Other) => "Other"
    case RoastCompleted => "Roast Completed"
  }

  /** Distinct kinds have distinct labels, so the script's comparison of
      event-type strings is a comparison of kinds. */
  lemma LabelInjective(a: EventKind, b: EventKind)
    ensures Label(a) == Label(b) ==> a == b
  {
  }

  /** The fields an event's details text is formatted from. */
  datatype Detail =
    | ProfileNote(bean: string, levelName: string)
    | BatchNote(batchGrams: int, bean: string, origin: string)
    | Note(text: string)
    | DurationNote(elapsed: int)

  datatype Event = Event(timestamp: Instant, kind: EventKind, details: Detail)

  type Log = seq<Event>

  /** Records an event at the end of the log, stamped with the current time. */
  function Append(log: Log, kind: EventKind, details: Detail, now: Instant): (r: Log)
    ensures |r| == |log| + 1 && r[..|log|] == log
    ensures r[|log|] == Event(now, kind, details)
  {
    log + [Event(now, kind, details)]
  }

  /** The events of one kind, in log order. */
  function EventsOf(log: Log, k: EventKind): (r: Log)
    ensures |r| <= |log|
    ensures forall e :: e in r <==> e in log && e.kind == k
    decreases |log|
  {
    if log == [] then []
    else
      var last := log[|log| - 1];
      EventsOf(log[..|log| - 1], k) + (if last.kind == k then [last] else [])
  }

  /** Index `i` holds the earliest event of kind `k`. */
  ghost predicate IsFirstOf(log: Log, k: EventKind, i: int) {
    && 0 <= i < |log|
    && log[i].kind == k
    && forall j :: 0 <= j < i ==> log[j].kind != k
  }

  /** The filter is empty exactly when no event of that kind was logged. */
  lemma EventsOfEmpty(log: Log, k: EventKind)
    ensures |EventsOf(log, k)| == 0 <==> forall i :: 0 <= i < |log| ==> log[i].kind != k
  {
  }

  /** The head of the filtered log is the earliest event of that kind in
      log order: taking `.iloc[0]` of the filter picks the first occurrence. */
  lemma {:induction false} FirstOfFilter(log: Log, k: EventKind)
    requires |EventsOf(log, k)| > 0
    ensures exists i :: IsFirstOf(log, k, i) && EventsOf(log, k)[0] == log[i]
    decreases |log|
  {
    var init := log[..|log| - 1];
    var last := log[|log| - 1];
    var tail := if last.kind == k then [last] else [];
    assert EventsOf(log, k) == EventsOf(init, k) + tail;
    if |EventsOf(init, k)| > 0 {
      FirstOfFilter(init, k);
      var i :| IsFirstOf(init, k, i) && EventsOf(init, k)[0] == init[i];
      assert EventsOf(log, k)[0] == EventsOf(init, k)[0];
      assert forall j :: 0 <= j < |init| ==> log[j] == init[j];
      assert IsFirstOf(log, k, i) && EventsOf(log, k)[0] == log[i];
    } else {
      EventsOfEmpty(init, k);
      assert EventsOf(log, k) == [last];
      assert forall j :: 0 <= j < |init| ==> log[j] == init[j];
      assert IsFirstOf(log, k, |log| - 1);
    }
  }

  /** Appending extends the filter of the appended kind by exactly that
      event and leaves every other kind's filter unchanged. */
  lemma EventsOfAppend(log: Log, kind: EventKind, details: Detail, now: Instant, k: EventKind)
    ensures EventsOf(Append(log, kind, details, now), k)
            == EventsOf(log, k) + (if kind == k then [Event(now, kind, details)] else [])
  {
  }

  /** Once an event of kind `k` has been logged, appending more events never
      changes which one comes first. */
  lemma FirstOfStable(log: Log, kind: EventKind, details: Detail, now: Instant, k: EventKind)
    requires |EventsOf(log, k)| > 0
    ensures EventsOf(Append(log, kind, details, now), k)[0] == EventsOf(log, k)[0]
  {
  }

  /** Clearing discards every event; no kind has any event left. */
  function Clear(log: Log): (r: Log)
    ensures forall k :: |EventsOf(r, k)| == 0
  {
    []
  }
}

=== FILE: wrappers.dfy ===
/** The optional-value datatype used throughout the model: `None` stands for
    Python's `None` (an unset session field) or for a lookup that raises. */
module Wrappers {

  datatype Option<+T> = None | Some(value: T)
}
